=== FILE: README.md ===
# AP video downloader: a Dafny model of its core

The browser extension looks up a video on the Wistia platform, lists the
renditions ("qualities") a user can pick, and downloads the chosen file or
its subtitle track under a safe file name while reporting progress. This
project models the three pieces of it that hold logic and proves what they
guarantee:

- **Filename sanitizer** (`sanitizer.dfy`, module `Sanitizer`). It deletes
  `<>:"/\|?*` and the control characters U+0000–U+001F. It drops the trailing
  run of spaces and dots. It prefixes `_invalid_` to Windows device names
  (`CON`, `PRN`, `AUX`, `NUL`, `COM1`–`COM9`, `LPT1`–`LPT9`, any letter case,
  optionally followed by a dot and an extension).
- **Rendition selection** over an already-parsed media descriptor
  (`renditions.dfy`, `sorting.dfy`, `videoservice.dfy`, `popup.dfy`):
  - the quality list: filter, then sort by resolution. The sort is a stable
    insertion sort in module `Sorting`, generic over its integer key;
  - the asset lookup with its `bin` → `mp4` rewrite;
  - the subtitle address;
  - the video name.
  Both copies of the service are modelled. The class in
  `src/classes/VideoService.ts` becomes module `VideoService`, and the copy in
  `src/popup.ts` becomes module `Popup`. `Popup` also holds the file-name
  composition of the two download handlers. A lemma relates the two copies.
- **Chunked download engine** (`downloadservice.dfy`, module
  `DownloadService`). It checks the response and reads the body chunk by
  chunk. After each chunk it reports `Math.round(loaded / total * 100)`. At
  the end it joins the chunks.

Supporting modules: `Wrappers` (`Option`, `Result`) and `JsText`. `JsText`
models the JavaScript built-ins the core calls: `endsWith`, `replace` with a
string pattern, and `parseInt`. Here `parseInt` reads leading decimal digits
and returns `None` for `NaN`.

Network access is an input. Each descriptor fetch becomes an
`Option<Media>`, where `None` covers a network error, a non-ok status and an
unparsable body: the source catches all three and returns `null`. The HTTP
response of a download becomes a `Response` value. Its body is a sequence of
chunks plus how the stream ended. The progress callback becomes the sequence
of values it receives.

Four behaviours of the code are easy to misread; the model follows the code
in each:

- `".."` sanitizes to `""`, not to `"_invalid_.."`. The trailing-run deletion
  removes every dot first, so the source's test for `"."` and `".."` can never
  succeed (`Sanitizer.DotNamesUnreachable`, `Sanitizer.SanitizeDotDot`).
- The `bin` → `mp4` rewrite is not confined to the last path segment. It
  replaces the first `bin` anywhere in the address
  (`Popup.RewriteNotConfinedToExtension`).
- The video file name is the sanitized name plus `.mp4`. The quality is not
  part of it (`Popup.DownloadVideoExample`).
- The source's comparator leaves the position of `"Original File"` open.
  `parseInt(b) - parseInt(a)` is `NaN` for it, which makes the comparator
  inconsistent. ECMAScript then leaves the whole order implementation-defined,
  including the relative order of the numbered names. The model uses an
  explicit key, `Renditions.Rank`: the parsed number, or -1 for a name
  without a leading number. Equal keys keep their input order. So
  number-less names come last. When every kept name starts with a number
  below 2^53, the comparator is consistent and this is exactly the order the
  source's stable sort produces (`Renditions.QualitiesNumericOrder`).
  `parseInt` yields a double, which is exact only below 2^53.

## Model

| member | source | states |
|---|---|---|
| Sanitizer.RemoveForbiddenClean | src/classes/VideoService.ts:52 | `RemoveForbidden`, which models the global deletion regex, leaves a result that holds none of `<` `>` `:` `"` `/` `\` `?` `*`, the vertical bar, or a code point below 0x20, is no longer than the input, and is the input itself when nothing is forbidden |
| Sanitizer.RemoveForbiddenAppend | src/classes/VideoService.ts:52 | the deletion distributes over concatenation, so survivors keep their original order |
| Sanitizer.RemoveForbiddenChar | src/classes/VideoService.ts:52 | a single character is dropped exactly when it is forbidden |
| Sanitizer.TrimTrailing | src/classes/VideoService.ts:53 | the result is a prefix of the input that does not end in a space or dot, and everything removed is spaces and dots (the maximal trailing run) |
| Sanitizer.Sanitize | src/classes/VideoService.ts:50-59 | the output has no forbidden character and does not end in a space or dot; a stripped name that is a device name (`Reserved`, which models the device-name regex at line 54, where `.` excludes line terminators and `/i` folds ASCII letters only) gets the `_invalid_` prefix, any other is returned as stripped |
| Sanitizer.DotNamesUnreachable | src/classes/VideoService.ts:53-56 | after stripping, the name is never `"."` or `".."`, so that part of the test is dead |
| Sanitizer.NotReservedByFirstLetter | src/classes/VideoService.ts:54 | a name whose first letter is not C, P, A, N or L (any case) never satisfies `Reserved`, the device-name regex |
| Sanitizer.SanitizeIdempotent | src/classes/VideoService.ts:50-59 | sanitizing twice gives the same as sanitizing once |
| Sanitizer.SanitizeDeletesForbidden | src/classes/VideoService.ts:52 | `"a<b>c"` becomes `"abc"` |
| Sanitizer.SanitizeDeviceName | src/classes/VideoService.ts:54-57 | `"CON"` becomes `"_invalid_CON"` |
| Sanitizer.SanitizeDeviceNameWithExtension | src/classes/VideoService.ts:54-57 | `"con.txt"` becomes `"_invalid_con.txt"` (case-insensitive match, with extension) |
| Sanitizer.SanitizeTrailingDot | src/classes/VideoService.ts:53 | `"file."` becomes `"file"` |
| Sanitizer.SanitizeDotDot | src/classes/VideoService.ts:53-58 | `".."` becomes `""`, not `"_invalid_.."` |
| Sanitizer.SanitizeColonStar | src/classes/VideoService.ts:52 | `"My:Video*"` becomes `"MyVideo"` |
| Sanitizer.SanitizeLineSeparator | src/classes/VideoService.ts:54 | `"CON.a"` followed by U+2028 is not a device name, because `.*` does not match a line separator |
| JsText.IndexOf | src/popup.ts:18 | the index returned is an occurrence with no earlier one; `None` means there is no occurrence |
| JsText.ReplaceFirst | src/popup.ts:18 | without an occurrence the string is unchanged; otherwise only the first occurrence is replaced and the rest is kept |
| JsText.ParseInt | src/classes/VideoService.ts:40 | the result is `NaN` (`None`) exactly when the string does not start with a digit |
| JsText.ParseIntDecimal | src/classes/VideoService.ts:40 | a number written in decimal and followed by a non-digit (`"1080p"`) parses back to itself |
| Renditions.KeptNames | src/classes/VideoService.ts:32-39 | every kept name is `"...p"` or `"Original File"`, every such asset name is kept, and every kept name belongs to some asset |
| Renditions.KeptNamesAppend | src/classes/VideoService.ts:32-39 | the filter keeps the survivors in asset order |
| Sorting.Insert | src/classes/VideoService.ts:40 | insertion adds exactly the one element and loses none |
| Sorting.InsertDescending | src/classes/VideoService.ts:40 | inserting into a list ordered by descending key keeps it ordered |
| Sorting.SortDescending | src/classes/VideoService.ts:40 | the result is a permutation of the input ordered by descending key |
| Sorting.InsertWithKey | src/classes/VideoService.ts:40 | an inserted element lands before every element of the same key and leaves their order alone |
| Renditions.SortByQuality | src/classes/VideoService.ts:40 | the result is a permutation of the input ordered by descending rank |
| Sorting.SortStable | src/classes/VideoService.ts:40 | elements of equal key keep their relative input order, as the stable `Array.prototype.sort` keeps them |
| Renditions.Qualities | src/classes/VideoService.ts:32-40 | the quality list holds only selectable names, is a permutation of the kept asset names, and is ordered by descending `Rank` (the source's order when every kept name is numbered) |
| Renditions.QualitiesNumericOrder | src/classes/VideoService.ts:40 | when every kept name starts with a number, the list is non-increasing in that number, read as an exact integer (the source's order while the numbers stay below 2^53) |
| Renditions.NonNumericLast | src/classes/VideoService.ts:40 | names without a leading number (`"Original File"`) come after every numbered name in the model's `Rank` order |
| Renditions.QualitiesExample | src/classes/VideoService.ts:32-40 | 720p, Original File, 1080p and thumbnail give `["1080p", "720p", "Original File"]` under the model's `Rank` order; the list mixes a number-less name with numbered ones, so the source's own order for it is engine-defined |
| Renditions.FindAsset | src/popup.ts:14-16 | returns the first asset whose display name equals the quality exactly, and `None` exactly when no asset matches |
| VideoService.GetVideoName | src/classes/VideoService.ts:23-26 | for a descriptor with a name, null exactly when the descriptor fetch failed; otherwise the sanitized name, which is free of forbidden characters and trailing spaces or dots |
| VideoService.GetVideoQualities | src/classes/VideoService.ts:28-43 | for a descriptor with an asset list, null exactly when the fetch failed; otherwise a permutation of the selectable asset names ordered by descending `Rank` |
| VideoService.GetSubtitlesUrl | src/classes/VideoService.ts:45-47 | the address is the captions prefix of fast.wistia.com, then the video id, then `.vtt?language=eng` |
| VideoService.GetSubtitlesUrlInjective | src/classes/VideoService.ts:45-47 | different videos get different subtitle addresses |
| Popup.GetVideoUrl | src/popup.ts:4-23 | null exactly when the fetch failed, the asset list is missing or no asset matches; otherwise the first exact match's address with its first `bin` replaced by `mp4` |
| Popup.MediaUrlRewrite | src/popup.ts:18 | the rewrite keeps the address length and leaves an address without `bin` unchanged |
| Popup.MediaUrlRewriteAt | src/popup.ts:18 | when the first `bin` starts at `i`, exactly those three characters become `mp4` |
| Popup.RewriteNotConfinedToExtension | src/popup.ts:18 | `/cabin/v.bin` becomes `/camp4/v.bin`: the rewrite hits the first `bin` wherever it is |
| Popup.GetVideoName | src/popup.ts:25-42 | null exactly when the fetch failed or the name is missing or empty; otherwise the sanitized name |
| Popup.GetVideoQualities | src/popup.ts:44-76 | null exactly when the fetch failed or the asset list is missing; otherwise the same filtered and ordered list as the class |
| Popup.GetSubtitlesUrl | src/popup.ts:78-80 | the address is the base URL, `/embed/captions/`, the video id and `.vtt?language=eng`, in that order |
| Popup.AgreesWithClass | src/popup.ts:25-80 | with the fast.wistia.com base, the popup returns the class's subtitle address, the class's quality list whenever the class does not throw (asset list present), and the class's name when the name is present and non-empty or the fetch failed; for an empty name the popup returns null where the class returns `""` |
| Popup.HandleDownloadVideo | src/popup.ts:158-175 | a missing or empty video address fails first; then a missing or empty name fails; otherwise the request is the address with the sanitized name plus `.mp4` |
| Popup.HandleDownloadSubtitles | src/popup.ts:177-189 | a missing or empty name fails; otherwise the request is the subtitle address with the sanitized name plus `.vtt` |
| Popup.VideoFileName | src/popup.ts:171-174 | every video file name is a non-empty stem free of forbidden characters and trailing spaces or dots, followed by `.mp4` |
| Popup.SubtitlesFileName | src/popup.ts:184-188 | every subtitle file name is such a stem followed by `.vtt` |
| Popup.DownloadVideoExample | src/popup.ts:158-175 | a descriptor named `My:Video*` with a 720p asset at `https://x/y.bin` downloads `https://x/y.mp4` as `MyVideo.mp4` |
| DownloadService.Concat | src/classes/DownloadService.ts:31-38 | the assembled payload is as long as all chunks together |
| DownloadService.ConcatPrefix | src/classes/DownloadService.ts:31-38 | the bytes of the first `i` chunks form the start of the assembled payload |
| DownloadService.ConcatChunkAt | src/classes/DownloadService.ts:31-38 | chunk `k` occupies the payload exactly from the byte count of the chunks before it to that count plus its own length, so the payload is the chunks in read order |
| DownloadService.Percent | src/classes/DownloadService.ts:34 | the value is the integer nearest to `100 * loaded / total`, halves rounded up, as `Math.round` does |
| DownloadService.TotalSize | src/classes/DownloadService.ts:8-18 | a non-ok response or missing body fails with `BadResponse`; otherwise a missing or empty Content-Length fails with `MissingContentLength`; otherwise the size is the header's parsed number, with 0 standing for `NaN` |
| DownloadService.DownloadFile | src/classes/DownloadService.ts:7-38 | a guard failure reports no progress at all and returns that guard's own error (`BadResponse` or `MissingContentLength`); a body without chunks is accepted whatever number the header holds and yields no report and an empty payload; otherwise one report per chunk in read order, report `k` being the rounded percentage of the first `k + 1` chunk lengths over the total; a stream that ends normally yields the concatenation of all chunks, and a failing read yields an error |
| DownloadService.TotalLengthPrefix | src/classes/DownloadService.ts:31-32 | the running byte count after more reads is never smaller |
| DownloadService.PercentMonotonic | src/classes/DownloadService.ts:34 | more bytes never round to a smaller percentage |
| DownloadService.ProgressNonDecreasing | src/classes/DownloadService.ts:31-35 | the reported progress sequence is non-decreasing |
| DownloadService.PercentInRange | src/classes/DownloadService.ts:34 | while no more than the total has arrived, the percentage lies in [0, 100] |
| DownloadService.ProgressInRange | src/classes/DownloadService.ts:31-35 | when the chunks add up to no more than the announced size, every reported value lies in [0, 100] |
| DownloadService.LastProgressComplete | src/classes/DownloadService.ts:18-35 | when the chunks add up to exactly the announced size, the last report is 100 |

## Left out

- `fetch`, `response.json()`, response headers and `getReader()` are network and stream I/O. Their results are inputs: `Option<Media>` for a descriptor fetch and `Response` for a download.
- The JSON schema (`ApMediaResponse`) is not part of this model. The descriptor is the `Media` datatype, and asset fields are taken to be strings. A malformed asset, such as one without `display_name`, would make the source throw inside `filter`. The model does not represent such an asset.
- `VideoService.GetVideoName`, `VideoService.GetVideoQualities`: each requires the one descriptor field it reads, the name and the asset list respectively. Without it the source calls `replace` or `filter` on `undefined` and throws, and a thrown error is not modelled.
- Blob and object-URL creation, anchor clicking (src/classes/DownloadService.ts:39-48) and the popup's own `DownloadService` (src/popup.ts:105-117) are browser persistence side effects. The model stops at the assembled payload and the download request.
- `TabService`, `VideoDownloader` (src/popup.ts:95-232 apart from the two handlers' file-name composition), src/classes/VideoDownloader.ts and src/main.ts are UI glue: tab queries, alerts, `window.open`, `chrome.tabs.create` and event wiring.
- `getVideoID` and `isValidClassroomTab` are thin wrappers over `URL`/`URLSearchParams`. The handlers are modelled from the point where the video identifier is known.
- `JsText.ParseInt`: reads leading ASCII decimal digits only, as an exact integer; the source's result is a double, exact only below 2^53. The source's `parseInt` also skips leading white space, accepts a sign and, without a radix, a `0x` prefix. The model assumes that display names and Content-Length values start with a digit when they hold a number; the source does not check this, and a name such as `" 720p"` passes the filter and parses as 720 in the source but has no number in the model.
- `DownloadService.DownloadFile`: requires a Content-Length that starts with a nonzero number, or a body without chunks (`UsableSize`). For a zero or non-numeric header and at least one chunk the source reports `NaN` or `Infinity` in floating point, and floating point is not modelled. With no chunk it never divides, and the model covers that case.
- `DownloadService.TotalSize`: a header that does not start with a digit gives the placeholder size 0 instead of `NaN`; the value is only used when no chunk arrives.
- `DownloadService.Percent`: rounds the exact quotient. The source computes `(loadedSize / totalSize) * 100` in double precision, which can land just beside a half and round the other way; floating point is not modelled.
- `Renditions.QualitiesNumericOrder`: its order is the program's only while every parsed number is below 2^53. The source's `parseInt` yields a double, exact only below 2^53, while `JsText.ParseInt` yields an exact integer. Names such as `"9007199254740992p"` and `"9007199254740993p"` parse to the same double, the comparator returns 0 and the source keeps their input order, where the model puts the larger first. Names of more than 308 digits parse to `Infinity`, and `Infinity - Infinity` is `NaN`, so the source's order is then engine-defined.
- `Renditions.SortByQuality`: ranks names without a leading number below all numbered names. When the kept list mixes such a name with numbered ones, the source's comparator returns `NaN`, is inconsistent, and ECMAScript leaves the whole order implementation-defined, the relative order of the numbered names included (an engine that treats `NaN` as "equal" may return `["720p", "Original File", "1080p"]` unchanged). So `Renditions.Qualities`, `Renditions.NonNumericLast` and `Renditions.QualitiesExample` describe the model's `Rank` order, not the program's output, for such lists. Only `Renditions.QualitiesNumericOrder` states the program's order, and only for numbers below 2^53 (next line).
- Diagnostic logging (`console.error`) has no observable effect on results and is not modelled.
- The async scheduling is not modelled: the read loop is strictly sequential and is a plain loop.
- JavaScript strings are UTF-16 code units, and a Dafny `char` is a Unicode scalar value. The sanitizer only tests characters below U+0080 and the two line separators, so the difference does not show.

=== FILE: downloadservice.dfy ===
/** `downloadFile` of src/classes/DownloadService.ts: check the response,
    read the body chunk by chunk while reporting progress, and assemble the
    payload. The HTTP response is an input; the progress callback becomes the
    trace of values it receives; saving the payload through an anchor element
    is not modelled. */
module DownloadService {
  import opened Wrappers
  import opened JsText

  type byte = b: int | 0 <= b < 256

  type Chunk = seq<byte>

  /** How the body stream ends after its last chunk: a final `done` read, or
      a read that rejects. */
  datatype StreamEnd = Done | ReadError

  datatype Body = Body(chunks: seq<Chunk>, end: StreamEnd)

  /** What `fetch(url)` resolved to: `ok`, the `content-length` header (if
      sent) and the body stream (if any). */
  datatype Response = Response(ok: bool, contentLength: Option<string>, body: Option<Body>)

  /** The errors `downloadFile` throws. */
  datatype DownloadError = BadResponse | MissingContentLength | StreamReadFailed

  /** Sum of the chunk lengths. */
  function TotalLength(chunks: seq<Chunk>): nat {
    if chunks == [] then 0
    else TotalLength(chunks[..|chunks| - 1]) + |chunks[|chunks| - 1]|
  }

  /** The chunks joined in read order, as `new Blob(chunks)` joins them. */
  function Concat(chunks: seq<Chunk>): (r: seq<byte>)
    ensures |r| == TotalLength(chunks)
  {
    if chunks == [] then []
    else Concat(chunks[..|chunks| - 1]) + chunks[|chunks| - 1]
  }

  /** `Math.round(loaded / total * 100)` computed exactly: the nearest
      integer to `100 * loaded / total`, halves rounded up. */
  function Percent(loaded: nat, total: nat): (p: nat)
    requires total > 0
    ensures 2 * total * p <= 200 * loaded + total < 2 * total * (p + 1)
  {
    (200 * loaded + total) / (2 * total)
  }

  /** The value reported after the chunk at index `k`. */
  function ProgressAfter(chunks: seq<Chunk>, total: nat, k: nat): nat
    requires total > 0 && k < |chunks|
  {
    Percent(TotalLength(chunks[..k + 1]), total)
  }

  /** The header guard: `!contentLength` holds for a missing and for an
      empty header. The size is `parseInt(contentLength, 10)`; a header that
      does not start with a digit, for which the source gets `NaN`, is given
      the placeholder size 0, which only matters for a body without chunks
      (see `UsableSize`). */
  function TotalSize(r: Response): (t: Result<nat, DownloadError>)
    ensures t.Failure? <==> !r.ok || r.body.None? || r.contentLength in {None, Some("")}
    ensures t.Failure? ==> t.error == (if !r.ok || r.body.None? then BadResponse else MissingContentLength)
    ensures t.Success? && ParseInt(r.contentLength.value).Some? ==>
              t.value == ParseInt(r.contentLength.value).value
    ensures t.Success? && ParseInt(r.contentLength.value).None? ==> t.value == 0
  {
    if !r.ok || r.body.None? then Failure(BadResponse)
    else if r.contentLength.None? || r.contentLength.value == "" then Failure(MissingContentLength)
    else match ParseInt(r.contentLength.value)
      case Some(n) => Success(n)
      case None => Success(0)
  }

  /** A size the progress arithmetic can divide by. A header that does not
      start with a digit, or that reads as zero, makes the source report
      `NaN` or `Infinity` as soon as a chunk arrives, which is not modelled;
      with no chunk at all the source never divides. */
  predicate UsableSize(r: Response) {
    TotalSize(r).Success? ==> TotalSize(r).value > 0 || r.body.value.chunks == []
  }

  method DownloadFile(r: Response) returns (result: Result<seq<byte>, DownloadError>, progress: seq<nat>)
    requires UsableSize(r)
    ensures TotalSize(r).Failure? ==> progress == [] && result == Failure(TotalSize(r).error)
    ensures TotalSize(r).Success? ==>
              var chunks := r.body.value.chunks;
              && |progress| == |chunks|
              && (forall k :: 0 <= k < |chunks| ==> progress[k] == ProgressAfter(chunks, TotalSize(r).value, k))
              && (r.body.value.end == Done ==> result == Success(Concat(chunks)))
              && (r.body.value.end == ReadError ==> result == Failure(StreamReadFailed))
  {
    var size := TotalSize(r);
    if size.Failure? {
      return Failure(size.error), [];
    }
    var totalSize := size.value;
    var chunks := r.body.value.chunks;
    var loadedSize := 0;
    var received: seq<Chunk> := [];
    progress := [];
    var i := 0;
    while i < |chunks|
      invariant 0 <= i <= |chunks|
      invariant received == chunks[..i]
      invariant loadedSize == TotalLength(received)
      invariant |progress| == i
      invariant |chunks| > 0 ==> totalSize > 0
      invariant forall k :: 0 <= k < i ==> progress[k] == ProgressAfter(chunks, totalSize, k)
    {
      var value := chunks[i];
      received := received + [value];
      loadedSize := loadedSize + |value|;
      assert received[..|received| - 1] == chunks[..i];
      progress := progress + [Percent(loadedSize, totalSize)];
      i := i + 1;
    }
    if r.body.value.end == ReadError {
      return Failure(StreamReadFailed), progress;
    }
    assert received == chunks;
    result := Success(Concat(received));
  }

  /** Reading more never lowers the running total. */
  lemma {:induction false} TotalLengthPrefix(chunks: seq<Chunk>, i: nat, j: nat)
    requires i <= j <= |chunks|
    ensures TotalLength(chunks[..i]) <= TotalLength(chunks[..j])
    decreases j - i
  {
    if i < j {
      TotalLengthPrefix(chunks, i, j - 1);
      assert chunks[..j][..j - 1] == chunks[..j - 1];
    }
  }

  /** The payload of the first `i` chunks is the start of the whole payload. */
  lemma {:induction false} ConcatPrefix(chunks: seq<Chunk>, i: nat)
    requires i <= |chunks|
    ensures TotalLength(chunks[..i]) <= |Concat(chunks)|
    ensures Concat(chunks[..i]) == Concat(chunks)[..TotalLength(chunks[..i])]
    decreases |chunks| - i
  {
    if i == |chunks| {
      assert chunks[..i] == chunks;
    } else {
      var init := chunks[..|chunks| - 1];
      assert init[..i] == chunks[..i];
      ConcatPrefix(init, i);
    }
  }

  /** Chunk `k` sits in the payload right after the bytes of the chunks
      before it, so the payload is the chunks joined in read order. */
  lemma ConcatChunkAt(chunks: seq<Chunk>, k: nat)
    requires k < |chunks|
    ensures TotalLength(chunks[..k]) + |chunks[k]| == TotalLength(chunks[..k + 1]) <= TotalLength(chunks)
    ensures Concat(chunks)[TotalLength(chunks[..k])..TotalLength(chunks[..k + 1])] == chunks[k]
  {
    var head := chunks[..k + 1];
    assert head[..k] == chunks[..k];
    ConcatPrefix(chunks, k + 1);
    assert Concat(head) == Concat(chunks[..k]) + chunks[k];
  }

  lemma PercentMonotonic(a: nat, b: nat, total: nat)
    requires total > 0 && a <= b
    ensures Percent(a, total) <= Percent(b, total)
  {
    var pa, pb := Percent(a, total), Percent(b, total);
    if pa > pb {
      MulMonotonic(2 * total, pb + 1, pa);
    }
  }

  lemma MulMonotonic(c: nat, x: nat, y: nat)
    requires x <= y
    ensures c * x <= c * y
  {
  }

  /** The reported progress never goes down. */
  lemma ProgressNonDecreasing(chunks: seq<Chunk>, total: nat, i: nat, j: nat)
    requires total > 0 && i <= j < |chunks|
    ensures ProgressAfter(chunks, total, i) <= ProgressAfter(chunks, total, j)
  {
    TotalLengthPrefix(chunks, i + 1, j + 1);
    PercentMonotonic(TotalLength(chunks[..i + 1]), TotalLength(chunks[..j + 1]), total);
  }

  /** While no more than the announced size has arrived, every reported
      value is a percentage. */
  lemma PercentInRange(loaded: nat, total: nat)
    requires total > 0 && loaded <= total
    ensures 0 <= Percent(loaded, total) <= 100
  {
    var p := Percent(loaded, total);
    if p > 100 {
      MulMonotonic(2 * total, 101, p);
    }
  }

  lemma ProgressInRange(chunks: seq<Chunk>, total: nat, k: nat)
    requires total > 0 && k < |chunks| && TotalLength(chunks) <= total
    ensures 0 <= ProgressAfter(chunks, total, k) <= 100
  {
    TotalLengthPrefix(chunks, k + 1, |chunks|);
    assert chunks[..|chunks|] == chunks;
    PercentInRange(TotalLength(chunks[..k + 1]), total);
  }

  /** When the chunks add up to the announced size, the last report is 100. */
  lemma LastProgressComplete(chunks: seq<Chunk>, total: nat)
    requires total > 0 && |chunks| > 0 && TotalLength(chunks) == total
    ensures ProgressAfter(chunks, total, |chunks| - 1) == 100
  {
    assert chunks[..|chunks|] == chunks;
    var p := Percent(total, total);
    if p > 100 {
      MulMonotonic(2 * total, 101, p);
    } else if p < 100 {
      MulMonotonic(2 * total, p + 1, 100);
    }
  }
}

=== FILE: jstext.dfy ===
/** The few JavaScript string built-ins the core relies on, over `seq<char>`:
    `String.prototype.endsWith`, `String.prototype.replace` with a string
    pattern (first occurrence only) and `parseInt` restricted to leading
    decimal digits. */
module JsText {
  import opened Wrappers

  predicate IsDigit(c: char) {
    '0' <= c <= '9'
  }

  predicate EndsWith(s: string, suffix: string) {
    |suffix| <= |s| && s[|s| - |suffix|..] == suffix
  }

  /** `pat` occurs in `s` starting at index `i`. */
  predicate OccursAt(s: string, pat: string, i: nat) {
    i + |pat| <= |s| && s[i..i + |pat|] == pat
  }

  /** Index of the first occurrence of a non-empty `pat` in `s`, searching
      from `from` onwards (`String.prototype.indexOf`). */
  function IndexOfFrom(s: string, pat: string, from: nat): (r: Option<nat>)
    requires |pat| > 0
    requires from <= |s|
    ensures r.Some? ==> from <= r.value && OccursAt(s, pat, r.value)
    ensures r.Some? ==> forall j :: from <= j < r.value ==> !OccursAt(s, pat, j)
    ensures r.None? ==> forall j :: from <= j <= |s| ==> !OccursAt(s, pat, j)
    decreases |s| - from
  {
    if from + |pat| > |s| then None
    else if s[from..from + |pat|] == pat then Some(from)
    else IndexOfFrom(s, pat, from + 1)
  }

  function IndexOf(s: string, pat: string): (r: Option<nat>)
    requires |pat| > 0
    ensures r.Some? ==> OccursAt(s, pat, r.value)
    ensures r.Some? ==> forall j :: 0 <= j < r.value ==> !OccursAt(s, pat, j)
    ensures r.None? ==> forall j :: 0 <= j <= |s| ==> !OccursAt(s, pat, j)
  {
    IndexOfFrom(s, pat, 0)
  }

  /** `s.replace(pat, rep)` with a string pattern: only the first occurrence
      of `pat` is replaced; without an occurrence `s` is returned as is.
      (The replacement strings used by the source contain no `$` patterns.) */
  function ReplaceFirst(s: string, pat: string, rep: string): (r: string)
    requires |pat| > 0
    ensures |r| == |s| - (if IndexOf(s, pat).Some? then |pat| - |rep| else 0)
    ensures IndexOf(s, pat).None? ==> r == s
    ensures IndexOf(s, pat).Some? ==>
              var i := IndexOf(s, pat).value;
              && r[..i] == s[..i]
              && r[i..i + |rep|] == rep
              && r[i + |rep|..] == s[i + |pat|..]
  {
    match IndexOf(s, pat)
    case None => s
    case Some(i) => s[..i] + rep + s[i + |pat|..]
  }

  /** The maximal prefix of decimal digits. */
  function LeadingDigits(s: string): (r: string)
    ensures |r| <= |s| && r == s[..|r|]
    ensures forall k :: 0 <= k < |r| ==> IsDigit(r[k])
    ensures |r| == |s| || !IsDigit(s[|r|])
  {
    if |s| > 0 && IsDigit(s[0]) then [s[0]] + LeadingDigits(s[1..]) else []
  }

  function DigitValue(c: char): nat
    requires IsDigit(c)
  {
    c as nat - '0' as nat
  }

  /** The number a digit string denotes, read most significant digit first. */
  function DigitsValue(ds: string): nat
    requires forall k :: 0 <= k < |ds| ==> IsDigit(ds[k])
  {
    if ds == [] then 0
    else DigitsValue(ds[..|ds| - 1]) * 10 + DigitValue(ds[|ds| - 1])
  }

  /** `parseInt(s)`: the value of the leading decimal digits, `None` (the
      source's `NaN`) when `s` does not start with a digit. */
  function ParseInt(s: string): (r: Option<nat>)
    ensures r.None? <==> (|s| == 0 || !IsDigit(s[0]))
  {
    var ds := LeadingDigits(s);
    if ds == [] then None else Some(DigitsValue(ds))
  }

  /** Decimal notation of `n`, without leading zeros. */
  function DecimalString(n: nat): (r: string)
    ensures |r| > 0
    ensures forall k :: 0 <= k < |r| ==> IsDigit(r[k])
  {
    var d := ['0' + (n % 10) as char];
    if n < 10 then d else DecimalString(n / 10) + d
  }

  lemma {:induction false} DecimalStringValue(n: nat)
    ensures DigitsValue(DecimalString(n)) == n
  {
    var r := DecimalString(n);
    assert r[..|r| - 1] == (if n < 10 then [] else DecimalString(n / 10));
    if n >= 10 {
      DecimalStringValue(n / 10);
    }
  }

  lemma {:induction false} LeadingDigitsOfDigits(ds: string, rest: string)
    requires forall k :: 0 <= k < |ds| ==> IsDigit(ds[k])
    requires rest == [] || !IsDigit(rest[0])
    ensures LeadingDigits(ds + rest) == ds
  {
    if ds != [] {
      assert (ds + rest)[1..] == ds[1..] + rest;
      LeadingDigitsOfDigits(ds[1..], rest);
    } else {
      assert ds + rest == rest;
    }
  }

  /** `parseInt` reads back any number written in decimal and followed by a
      non-digit, e.g. `parseInt("1080p") == 1080`. */
  lemma ParseIntDecimal(n: nat, rest: string)
    requires rest == [] || !IsDigit(rest[0])
    ensures ParseInt(DecimalString(n) + rest) == Some(n)
  {
    LeadingDigitsOfDigits(DecimalString(n), rest);
    DecimalStringValue(n);
  }
}

=== FILE: popup.dfy ===
/** The popup script, src/popup.ts: its own copy of `VideoService`, which
    takes the platform address as a constructor argument and reads the
    descriptor through optional chaining, and the two download handlers that
    compose a download request from it. Each `fetched` parameter is the
    outcome of one GET of the descriptor: `None` for a network failure, a
    non-ok status or a body that is not JSON, all of which the source catches
    and turns into `null`. */
module Popup {
  import opened Wrappers
  import opened JsText
  import Sanitizer
  import opened Renditions
  import VideoService

  /** `getVideoUrl`: the first asset whose display name is exactly
      `quality`, with the first `"bin"` of its address turned into `"mp4"`. */
  function GetVideoUrl(fetched: Option<Media>, quality: string): (r: Option<string>)
    ensures r.Some? <==>
              && fetched.Some? && fetched.value.assets.Some?
              && exists j :: 0 <= j < |fetched.value.assets.value|
                             && fetched.value.assets.value[j].displayName == quality
    ensures r.Some? ==>
              var assets := fetched.value.assets.value;
              exists i :: && 0 <= i < |assets|
                          && assets[i].displayName == quality
                          && (forall j :: 0 <= j < i ==> assets[j].displayName != quality)
                          && r.value == ReplaceFirst(assets[i].url, "bin", "mp4")
  {
    if fetched.None? || fetched.value.assets.None? then None
    else
      var assets := fetched.value.assets.value;
      match FindAsset(assets, quality)
      case None => None
      case Some(i) => Some(ReplaceFirst(assets[i].url, "bin", "mp4"))
  }

  /** The address rewrite keeps the length and leaves an address without
      `"bin"` alone. */
  lemma MediaUrlRewrite(url: string)
    ensures |ReplaceFirst(url, "bin", "mp4")| == |url|
    ensures (forall j: nat :: j <= |url| ==> !OccursAt(url, "bin", j)) ==>
              ReplaceFirst(url, "bin", "mp4") == url
  {
  }

  /** When the first `"bin"` starts at `i`, exactly those three characters
      become `"mp4"`. */
  lemma MediaUrlRewriteAt(url: string, i: nat)
    requires OccursAt(url, "bin", i)
    requires forall j: nat :: j < i ==> !OccursAt(url, "bin", j)
    ensures var r := ReplaceFirst(url, "bin", "mp4");
            && |r| == |url|
            && r[..i] == url[..i] && r[i..i + 3] == "mp4" && r[i + 3..] == url[i + 3..]
  {
    assert IndexOf(url, "bin") == Some(i);
  }

  /** The rewrite touches the first `"bin"` wherever it is, also outside the
      last path segment: the path `/cabin/v.bin` becomes `/camp4/v.bin`. */
  lemma RewriteNotConfinedToExtension()
    ensures ReplaceFirst("/cabin/v.bin", "bin", "mp4") == "/camp4/v.bin"
  {
    var url := "/cabin/v.bin";
    assert url[3..6] == "bin";
    forall j: nat | j < 3
      ensures !OccursAt(url, "bin", j)
    {
      assert url[j..j + 3][0] == url[j];
    }
    MediaUrlRewriteAt(url, 3);
    assert url[..3] + "mp4" + url[6..] == "/camp4/v.bin";
  }

  /** `getVideoName`: `null` unless the descriptor holds a non-empty name. */
  function GetVideoName(fetched: Option<Media>): (r: Option<string>)
    ensures r.None? <==> fetched.None? || fetched.value.name.None? || fetched.value.name.value == ""
    ensures r.Some? ==> r.value == Sanitizer.Sanitize(fetched.value.name.value)
  {
    if fetched.None? then None
    else match fetched.value.name
      case None => None
      case Some(n) => if n == "" then None else Some(Sanitizer.Sanitize(n))
  }

  /** `getVideoQualities`: `null` when the descriptor has no asset list,
      otherwise the filtered list sorted by resolution. */
  function GetVideoQualities(fetched: Option<Media>): (r: Option<seq<string>>)
    ensures r.None? <==> fetched.None? || fetched.value.assets.None?
    ensures r.Some? ==> forall k :: 0 <= k < |r.value| ==> Selectable(r.value[k])
    ensures r.Some? ==> multiset(r.value) == multiset(KeptNames(fetched.value.assets.value))
    ensures r.Some? ==> Descending(r.value)
  {
    if fetched.None? then None
    else match fetched.value.assets
      case None => None
      case Some(assets) => Some(Qualities(assets))
  }

  /** `getSubtitlesUrl` on the configured platform address. */
  function GetSubtitlesUrl(baseUrl: string, videoID: string): (r: string)
    ensures |r| == |baseUrl| + 16 + |videoID| + 17
    ensures r[..|baseUrl|] == baseUrl
    ensures r[|baseUrl|..|baseUrl| + 16] == "/embed/captions/"
    ensures r[|baseUrl| + 16..|baseUrl| + 16 + |videoID|] == videoID
    ensures r[|baseUrl| + 16 + |videoID|..] == ".vtt?language=eng"
  {
    baseUrl + "/embed/captions/" + videoID + ".vtt?language=eng"
  }

  /** The popup, built with the platform address, agrees with the class in
      src/classes/VideoService.ts wherever the class does not throw, except
      that the popup refuses an empty name the class would sanitize. */
  lemma AgreesWithClass(info: Option<Media>, videoID: string)
    ensures (info.Some? ==> info.value.assets.Some?) ==>
              GetVideoQualities(info) == VideoService.GetVideoQualities(info)
    ensures GetSubtitlesUrl(VideoService.WistiaBase, videoID) == VideoService.GetSubtitlesUrl(videoID)
    ensures info.None? ==> GetVideoName(info) == VideoService.GetVideoName(info)
    ensures info.Some? && info.value.name.Some? && info.value.name.value != "" ==>
              GetVideoName(info) == VideoService.GetVideoName(info)
    ensures info.Some? && info.value.name == Some("") ==>
              GetVideoName(info).None? && VideoService.GetVideoName(info) == Some("")
  {
    if info.Some? && info.value.name == Some("") {
      assert Sanitizer.RemoveForbidden("") == "";
    }
  }

  /** What a handler hands to the download service. */
  datatype DownloadRequest = DownloadRequest(url: string, fileName: string)

  /** The errors the handlers throw. */
  datatype HandlerError = VideoUrlNull | VideoNameNull

  /** `handleDownloadVideo` from the point where the video identifier is
      known: look up the address, then the name, each with its own fetch of
      the descriptor; an empty string counts as missing, as JavaScript's
      truthiness test does. */
  function HandleDownloadVideo(quality: string, urlFetch: Option<Media>, nameFetch: Option<Media>)
    : (r: Result<DownloadRequest, HandlerError>)
    ensures r == Failure(VideoUrlNull) <==> GetVideoUrl(urlFetch, quality) in {None, Some("")}
    ensures r == Failure(VideoNameNull) <==>
              && GetVideoUrl(urlFetch, quality) !in {None, Some("")}
              && GetVideoName(nameFetch) in {None, Some("")}
    ensures r.Success? ==>
              && Some(r.value.url) == GetVideoUrl(urlFetch, quality)
              && r.value.fileName == Sanitizer.Sanitize(nameFetch.value.name.value) + ".mp4"
  {
    var videoUrl := GetVideoUrl(urlFetch, quality);
    if videoUrl.None? || videoUrl.value == "" then Failure(VideoUrlNull)
    else
      var videoName := GetVideoName(nameFetch);
      if videoName.None? || videoName.value == "" then Failure(VideoNameNull)
      else Success(DownloadRequest(videoUrl.value, videoName.value + ".mp4"))
  }

  /** `handleDownloadSubtitles` from the point where the video identifier is
      known. */
  function HandleDownloadSubtitles(baseUrl: string, videoID: string, nameFetch: Option<Media>)
    : (r: Result<DownloadRequest, HandlerError>)
    ensures r.Failure? <==> GetVideoName(nameFetch) in {None, Some("")}
    ensures r.Failure? ==> r.error == VideoNameNull
    ensures r.Success? ==>
              && r.value.url == GetSubtitlesUrl(baseUrl, videoID)
              && r.value.fileName == Sanitizer.Sanitize(nameFetch.value.name.value) + ".vtt"
  {
    var videoName := GetVideoName(nameFetch);
    if videoName.None? || videoName.value == "" then Failure(VideoNameNull)
    else Success(DownloadRequest(GetSubtitlesUrl(baseUrl, videoID), videoName.value + ".vtt"))
  }

  /** A non-empty sanitized stem followed by a four-character extension. */
  predicate ComposedName(f: string, ext: string) {
    && |ext| == 4 && |f| > 4 && f[|f| - 4..] == ext
    && Sanitizer.NoForbidden(f[..|f| - 4])
    && Sanitizer.NoTrailingSpaceOrDot(f[..|f| - 4])
  }

  /** Every file name `handleDownloadVideo` composes is a clean, non-empty
      stem followed by `.mp4`. */
  lemma VideoFileName(quality: string, urlFetch: Option<Media>, nameFetch: Option<Media>)
    ensures var r := HandleDownloadVideo(quality, urlFetch, nameFetch);
            r.Success? ==> ComposedName(r.value.fileName, ".mp4")
  {
    var r := HandleDownloadVideo(quality, urlFetch, nameFetch);
    if r.Success? {
      var stem := Sanitizer.Sanitize(nameFetch.value.name.value);
      assert stem != "";
      assert (stem + ".mp4")[..|stem|] == stem;
    }
  }

  /** Every file name `handleDownloadSubtitles` composes is a clean,
      non-empty stem followed by `.vtt`. */
  lemma SubtitlesFileName(baseUrl: string, videoID: string, nameFetch: Option<Media>)
    ensures var r := HandleDownloadSubtitles(baseUrl, videoID, nameFetch);
            r.Success? ==> ComposedName(r.value.fileName, ".vtt")
  {
    var r := HandleDownloadSubtitles(baseUrl, videoID, nameFetch);
    if r.Success? {
      var stem := Sanitizer.Sanitize(nameFetch.value.name.value);
      assert stem != "";
      assert (stem + ".vtt")[..|stem|] == stem;
    }
  }

  /** Worked example: a descriptor named `My:Video*` with one 720p asset
      stored as `.bin` yields the address ending in `.mp4` and the file name
      `MyVideo.mp4`. The descriptor is a parameter pinned by `requires`
      because a literal in the `ensures` makes the solver evaluate it eagerly. */
  lemma DownloadVideoExample(m: Media)
    requires m == Media(Some("My:Video*"), Some([Asset("720p", "https://x/y.bin")]))
    ensures HandleDownloadVideo("720p", Some(m), Some(m)).Success?
    ensures HandleDownloadVideo("720p", Some(m), Some(m)).value.url == "https://x/y.mp4"
    ensures HandleDownloadVideo("720p", Some(m), Some(m)).value.fileName == "MyVideo" + ".mp4"
  {
    ExampleLookups(m);
  }

  /** The two lookups of `DownloadVideoExample`, pinned the same way. */
  lemma ExampleLookups(m: Media)
    requires m == Media(Some("My:Video*"), Some([Asset("720p", "https://x/y.bin")]))
    ensures GetVideoUrl(Some(m), "720p") == Some("https://x/y.mp4")
    ensures GetVideoName(Some(m)) == Some("MyVideo")
  {
    Sanitizer.SanitizeColonStar();
    ExampleUrl();
    assert FindAsset(m.assets.value, "720p") == Some(0);
  }

  lemma ExampleUrl()
    ensures ReplaceFirst("https://x/y.bin", "bin", "mp4") == "https://x/y.mp4"
  {
    var u := "https://x/y.bin";
    assert u[12..15] == "bin";
    forall j: nat | j < 12
      ensures !OccursAt(u, "bin", j)
    {
      assert u[j..j + 3][0] == u[j];
    }
    MediaUrlRewriteAt(u, 12);
    assert u[..12] + "mp4" + u[15..] == "https://x/y.mp4";
  }
}

=== FILE: renditions.dfy ===
/** The media descriptor as parsed from the platform's JSON document, and
    the rendition list built from it: keep the selectable display names and
    order them by resolution, highest first. */
module Renditions {
  import opened Wrappers
  import opened JsText
  import Sorting

  /** One entry of `media.assets`. */
  datatype Asset = Asset(displayName: string, url: string)

  /** The `media` object of the descriptor. Both fields may be absent from
      the document, which the popup's optional chaining tolerates. */
  datatype Media = Media(name: Option<string>, assets: Option<seq<Asset>>)

  const OriginalFile := "Original File"

  /** The filter of `getVideoQualities`: a resolution such as `"720p"` or the
      sentinel `"Original File"`. */
  predicate Selectable(name: string) {
    EndsWith(name, "p") || name == OriginalFile
  }

  /** `.filter(selectable).map(asset => asset.display_name)`. */
  function KeptNames(assets: seq<Asset>): (r: seq<string>)
    ensures |r| <= |assets|
    ensures forall k :: 0 <= k < |r| ==> Selectable(r[k])
    ensures forall k :: 0 <= k < |assets| && Selectable(assets[k].displayName) ==>
              assets[k].displayName in r
    ensures forall n :: n in r ==> exists k :: 0 <= k < |assets| && assets[k].displayName == n
  {
    if assets == [] then []
    else
      var rest := KeptNames(assets[1..]);
      assert forall k :: 1 <= k < |assets| ==> assets[k] == assets[1..][k - 1];
      if Selectable(assets[0].displayName) then [assets[0].displayName] + rest else rest
  }

  /** The filter keeps the survivors in the order of the assets. */
  lemma {:induction false} KeptNamesAppend(a: seq<Asset>, b: seq<Asset>)
    ensures KeptNames(a + b) == KeptNames(a) + KeptNames(b)
  {
    if a != [] {
      assert (a + b)[0] == a[0];
      assert (a + b)[1..] == a[1..] + b;
      KeptNamesAppend(a[1..], b);
    } else {
      assert a + b == b;
    }
  }

  /** The sort key. The source compares `parseInt(b) - parseInt(a)`, which is
      `NaN` whenever a name has no leading number; the comparator is then
      inconsistent and the whole order is left to the engine. This model pins
      it: a name without a number ranks below every number. */
  function Rank(name: string): int {
    match ParseInt(name)
    case Some(v) => v
    case None => -1
  }

  predicate Descending(s: seq<string>) {
    Sorting.DescendingBy(Rank, s)
  }

  /** The comparator sort of `getVideoQualities`: highest rank first, names
      of equal rank in their original order (see `Sorting.SortStable`). */
  function SortByQuality(s: seq<string>): (r: seq<string>)
    ensures Descending(r)
    ensures multiset(r) == multiset(s)
  {
    Sorting.SortDescending(Rank, s)
  }

  /** `getVideoQualities` after the descriptor has been fetched. */
  function Qualities(assets: seq<Asset>): (r: seq<string>)
    ensures forall k :: 0 <= k < |r| ==> Selectable(r[k])
    ensures multiset(r) == multiset(KeptNames(assets))
    ensures Descending(r)
  {
    var kept := KeptNames(assets);
    var r := SortByQuality(kept);
    assert forall k :: 0 <= k < |r| ==> r[k] in multiset(kept);
    r
  }

  /** When every kept name starts with a number, the list runs from the
      highest number to the lowest: the order the source's comparator asks
      for while the numbers stay below 2^53, where `parseInt`'s double is
      exact. */
  lemma QualitiesNumericOrder(assets: seq<Asset>)
    requires forall n :: n in KeptNames(assets) ==> ParseInt(n).Some?
    ensures forall k :: 0 <= k < |Qualities(assets)| ==> ParseInt(Qualities(assets)[k]).Some?
    ensures var r := Qualities(assets);
            forall i, j :: 0 <= i < j < |r| ==> ParseInt(r[i]).value >= ParseInt(r[j]).value
  {
    var r := Qualities(assets);
    forall k | 0 <= k < |r|
      ensures ParseInt(r[k]).Some?
    {
      assert r[k] in multiset(KeptNames(assets));
    }
    forall i, j | 0 <= i < j < |r|
      ensures ParseInt(r[i]).value >= ParseInt(r[j]).value
    {
      assert r[i] in multiset(KeptNames(assets)) && r[j] in multiset(KeptNames(assets));
      assert Rank(r[i]) >= Rank(r[j]);
    }
  }

  /** Names without a leading number (such as `"Original File"`) come after
      every numbered name. */
  lemma NonNumericLast(s: seq<string>)
    ensures var r := SortByQuality(s);
            forall i, j :: 0 <= i < j < |r| && ParseInt(r[i]).None? ==> ParseInt(r[j]).None?
  {
  }

  /** Index of the first asset whose display name is exactly `quality`
      (`assets.find(...)`). */
  function FindAsset(assets: seq<Asset>, quality: string): (r: Option<nat>)
    ensures r.Some? ==> r.value < |assets| && assets[r.value].displayName == quality
    ensures r.Some? ==> forall j :: 0 <= j < r.value ==> assets[j].displayName != quality
    ensures r.None? <==> forall j :: 0 <= j < |assets| ==> assets[j].displayName != quality
  {
    if assets == [] then None
    else if assets[0].displayName == quality then Some(0)
    else match FindAsset(assets[1..], quality)
      case None => None
      case Some(i) => Some(i + 1)
  }

  /** `parseInt` on the names of the worked example below. */
  lemma RankOfNames()
    ensures Rank("1080p") == 1080 && Rank("720p") == 720 && Rank("Original File") == -1
  {
    assert DecimalString(1080) == "1080";
    ParseIntDecimal(1080, "p");
    assert DecimalString(1080) + "p" == "1080p";
    assert DecimalString(720) == "720";
    ParseIntDecimal(720, "p");
    assert DecimalString(720) + "p" == "720p";
  }

  /** Worked example: an asset list in the platform's usual shape. The
      thumbnail is dropped, the resolutions run from high to low and the
      sentinel comes last. */
  lemma QualitiesExample()
    ensures Qualities([Asset("720p", "u1"), Asset("Original File", "u2"),
                       Asset("1080p", "u3"), Asset("thumbnail", "u4")])
            == ["1080p", "720p", "Original File"]
  {
    KeptNamesExample();
    SortExample();
  }

  lemma KeptNamesExample()
    ensures KeptNames([Asset("720p", "u1"), Asset("Original File", "u2"),
                       Asset("1080p", "u3"), Asset("thumbnail", "u4")])
            == ["720p", "Original File", "1080p"]
  {
    var a := [Asset("720p", "u1"), Asset("Original File", "u2"), Asset("1080p", "u3"), Asset("thumbnail", "u4")];
    assert !EndsWith("thumbnail", "p");
    assert EndsWith("720p", "p") && EndsWith("1080p", "p");
    assert a[1..][1..][1..] == [Asset("thumbnail", "u4")];
    assert KeptNames(a[1..][1..][1..][1..]) == [];
  }

  lemma SortExample()
    ensures SortByQuality(["720p", "Original File", "1080p"]) == ["1080p", "720p", "Original File"]
  {
    SortTwo();
    InsertBetween();
    var k := ["720p", "Original File", "1080p"];
    assert k[1..] == ["Original File", "1080p"];
  }

  lemma SortTwo()
    ensures SortByQuality(["Original File", "1080p"]) == ["1080p", "Original File"]
  {
    RankOfNames();
    assert ["Original File", "1080p"][1..] == ["1080p"];
    assert ["1080p"][1..] == [];
    assert SortByQuality(["1080p"]) == ["1080p"];
    assert Sorting.Insert(Rank, "Original File", []) == ["Original File"];
    assert Sorting.Insert(Rank, "Original File", ["1080p"]) == ["1080p", "Original File"];
  }

  lemma InsertBetween()
    ensures Sorting.Insert(Rank, "720p", ["1080p", "Original File"]) == ["1080p", "720p", "Original File"]
  {
    RankOfNames();
    assert Sorting.Insert(Rank, "720p", ["Original File"]) == ["720p", "Original File"];
    assert ["1080p", "Original File"][1..] == ["Original File"];
  }
}

=== FILE: sanitizer.dfy ===
/** `sanitizeFilename` (src/classes/VideoService.ts, duplicated in
    src/popup.ts): delete characters a filesystem refuses, drop the trailing
    run of spaces and dots, and defuse Windows device names. */
module Sanitizer {

  /** A character of the class `[<>:"\/\\|?*\x00-\x1F]`. */
  predicate Forbidden(c: char) {
    || c == '<' || c == '>' || c == ':' || c == '"' || c == '/'
    || c == '\\' || c == '|' || c == '?' || c == '*'
    || c as int < 0x20
  }

  predicate NoForbidden(s: string) {
    forall k :: 0 <= k < |s| ==> !Forbidden(s[k])
  }

  predicate IsSpaceOrDot(c: char) {
    c == ' ' || c == '.'
  }

  /** The name is empty or its last character is neither a space nor a dot. */
  predicate NoTrailingSpaceOrDot(s: string) {
    s == [] || !IsSpaceOrDot(s[|s| - 1])
  }

  /** First step, `.replace(/[<>:"\/\\|?*\x00-\x1F]/g, "")`. */
  function RemoveForbidden(s: string): string {
    if s == [] then []
    else if Forbidden(s[0]) then RemoveForbidden(s[1..])
    else [s[0]] + RemoveForbidden(s[1..])
  }

  /** The deletion leaves no forbidden character behind, never lengthens the
      name, and changes nothing in a name that is already clean. */
  lemma {:induction false} RemoveForbiddenClean(s: string)
    ensures NoForbidden(RemoveForbidden(s))
    ensures |RemoveForbidden(s)| <= |s|
    ensures NoForbidden(s) ==> RemoveForbidden(s) == s
  {
    if s != [] {
      RemoveForbiddenClean(s[1..]);
      assert NoForbidden(s) ==> NoForbidden(s[1..]);
    }
  }

  /** Second step, `.replace(/[ .]+$/, "")`: the leftmost match of the
      pattern is the whole maximal trailing run of spaces and dots. */
  function TrimTrailing(s: string): (r: string)
    ensures |r| <= |s| && r == s[..|r|]
    ensures NoTrailingSpaceOrDot(r)
    ensures forall k :: |r| <= k < |s| ==> IsSpaceOrDot(s[k])
  {
    if s != [] && IsSpaceOrDot(s[|s| - 1]) then TrimTrailing(s[..|s| - 1]) else s
  }

  /** The name after both deletions, before the device-name test. */
  function Stripped(s: string): string {
    TrimTrailing(RemoveForbidden(s))
  }

  /** Case-insensitive comparison of ASCII letters, as a `/i` regular
      expression without the `u` flag compares them. */
  function UpperAscii(c: char): char {
    if 'a' <= c <= 'z' then (c as int - 32) as char else c
  }

  predicate SameIgnoringCase(s: string, word: string) {
    |s| == |word| && forall k :: 0 <= k < |s| ==> UpperAscii(s[k]) == word[k]
  }

  /** Characters `.` does not match in a JavaScript regular expression. */
  predicate IsLineTerminator(c: char) {
    c == '\n' || c == '\r' || c == '\U{2028}' || c == '\U{2029}'
  }

  /** The optional group `(\..*)?` followed by `$`. */
  predicate Extension(e: string) {
    e == [] || (e[0] == '.' && forall k :: 1 <= k < |e| ==> !IsLineTerminator(e[k]))
  }

  predicate IsDevice3(w: string) {
    SameIgnoringCase(w, "CON") || SameIgnoringCase(w, "PRN")
    || SameIgnoringCase(w, "AUX") || SameIgnoringCase(w, "NUL")
  }

  predicate IsDevice4(w: string) {
    |w| == 4 && (SameIgnoringCase(w[..3], "COM") || SameIgnoringCase(w[..3], "LPT"))
    && '1' <= w[3] <= '9'
  }

  /** `/^(CON|PRN|AUX|NUL|COM[1-9]|LPT[1-9])(\..*)?$/i.test(name)`. */
  predicate Reserved(name: string) {
    || (|name| >= 3 && IsDevice3(name[..3]) && Extension(name[3..]))
    || (|name| >= 4 && IsDevice4(name[..4]) && Extension(name[4..]))
  }

  const InvalidPrefix := "_invalid_"

  /** `sanitizeFilename`, with the source's test for `"."` and `".."`
      written out although it can never succeed (see `DotNamesUnreachable`). */
  function Sanitize(s: string): (r: string)
    ensures NoForbidden(r)
    ensures NoTrailingSpaceOrDot(r)
    ensures Reserved(Stripped(s)) ==> r == InvalidPrefix + Stripped(s)
    ensures !Reserved(Stripped(s)) ==> r == Stripped(s)
  {
    RemoveForbiddenClean(s);
    var t := Stripped(s);
    DotNamesUnreachable(s);
    if Reserved(t) || t == "." || t == ".." then InvalidPrefix + t else t
  }

  /** After the trailing run is dropped the name can no longer be `"."` or
      `".."`, so the source's extra test is dead code. */
  lemma DotNamesUnreachable(s: string)
    ensures Stripped(s) != "." && Stripped(s) != ".."
  {
  }

  lemma TrimTrailingClean(s: string)
    requires NoTrailingSpaceOrDot(s)
    ensures TrimTrailing(s) == s
  {
  }

  /** Every device name starts with one of the letters C, P, A, N or L. */
  lemma NotReservedByFirstLetter(name: string)
    requires |name| > 0 && UpperAscii(name[0]) !in "CPANL"
    ensures !Reserved(name)
  {
    if |name| >= 3 {
      assert name[..3][0] == name[0];
    }
    if |name| >= 4 {
      assert name[..4][..3][0] == name[0];
    }
  }

  lemma ReservedNeedsLetterFirst(s: string)
    ensures !Reserved(InvalidPrefix + s)
  {
    NotReservedByFirstLetter(InvalidPrefix + s);
  }

  /** Sanitizing a sanitized name changes nothing. */
  lemma SanitizeIdempotent(s: string)
    ensures Sanitize(Sanitize(s)) == Sanitize(s)
  {
    var r := Sanitize(s);
    var t := Stripped(s);
    StrippedClean(r);
    if Reserved(t) {
      ReservedNeedsLetterFirst(t);
    }
  }

  lemma StrippedClean(s: string)
    requires NoForbidden(s) && NoTrailingSpaceOrDot(s)
    ensures Stripped(s) == s
  {
    RemoveForbiddenClean(s);
    TrimTrailingClean(s);
  }

  /** `RemoveForbidden` deletes exactly the forbidden characters and keeps
      the others in order: it distributes over concatenation and acts on a
      single character by keeping or dropping it. */
  lemma {:induction false} RemoveForbiddenAppend(a: string, b: string)
    ensures RemoveForbidden(a + b) == RemoveForbidden(a) + RemoveForbidden(b)
  {
    if a != [] {
      assert (a + b)[0] == a[0];
      assert (a + b)[1..] == a[1..] + b;
      RemoveForbiddenAppend(a[1..], b);
      var head := if Forbidden(a[0]) then [] else [a[0]];
      assert RemoveForbidden(a + b) == head + RemoveForbidden(a[1..] + b);
      assert RemoveForbidden(a) == head + RemoveForbidden(a[1..]);
    } else {
      assert a + b == b;
    }
  }

  lemma RemoveForbiddenChar(c: char)
    ensures RemoveForbidden([c]) == if Forbidden(c) then [] else [c]
  {
    assert [c][1..] == [];
  }

  /** Worked examples. `".."` loses both dots and comes out empty; it is not
      prefixed. */
  lemma SanitizeDeletesForbidden()
    ensures Sanitize("a<b>c") == "abc"
  {
    assert RemoveForbidden("a<b>c") == "abc";
    assert TrimTrailing("abc") == "abc";
    assert "abc"[..3] == "abc";
    assert !SameIgnoringCase("abc", "AUX") by { assert UpperAscii("abc"[1]) != "AUX"[1]; }
    assert !IsDevice3("abc");
  }

  lemma SanitizeDeviceName()
    ensures Sanitize("CON") == "_invalid_CON"
  {
    assert Stripped("CON") == "CON";
    assert "CON"[..3] == "CON" && "CON"[3..] == [];
    assert SameIgnoringCase("CON", "CON");
  }

  lemma SanitizeDotDot()
    ensures Sanitize("..") == ""
  {
    assert RemoveForbidden("..") == "..";
    assert ".."[..1] == "." && "."[..0] == [];
    assert TrimTrailing("..") == [];
  }

  /** The name is a parameter pinned by `requires`: as a literal in the
      `ensures` it makes the solver evaluate it eagerly. */
  lemma SanitizeDeviceNameWithExtension(s: string)
    requires s == "con.txt"
    ensures Sanitize(s) == InvalidPrefix + s
  {
    assert RemoveForbidden("con.txt") == "con.txt";
    assert TrimTrailing("con.txt") == "con.txt";
    ReservedWithExtension(s);
  }

  lemma ReservedWithExtension(s: string)
    requires s == "con.txt"
    ensures Reserved(s)
  {
    assert s[..3] == "con" && s[3..] == ".txt";
    assert SameIgnoringCase("con", "CON");
    assert Extension(".txt");
  }

  lemma SanitizeTrailingDot()
    ensures Sanitize("file.") == "file"
  {
    assert RemoveForbidden("file.") == "file.";
    assert "file."[..4] == "file";
    assert TrimTrailing("file.") == "file";
    NotReservedByFirstLetter("file");
  }

  /** A line separator after the extension dot defeats the device-name test,
      because `.` in a JavaScript regular expression does not match it. */
  lemma SanitizeLineSeparator()
    ensures Sanitize("CON.a\U{2028}") == "CON.a\U{2028}"
  {
    var s := "CON.a\U{2028}";
    assert Stripped(s) == s;
    assert s[3..][2] == '\U{2028}';
    assert !Extension(s[3..]);
    assert s[..4][3] == '.';
  }

  lemma SanitizeColonStar()
    ensures Sanitize("My:Video*") == "MyVideo"
  {
    assert RemoveForbidden("My:Video*") == "MyVideo";
    assert TrimTrailing("MyVideo") == "MyVideo";
    NotReservedByFirstLetter("MyVideo");
  }
}

=== FILE: sorting.dfy ===
/** A stable insertion sort in descending order of an integer key. The
    rendition list is sorted with it, keyed by the parsed resolution. */
module Sorting {

  /** Every element ranks at least as high as every later one. */
  predicate DescendingBy<T>(key: T -> int, s: seq<T>) {
    forall i, j :: 0 <= i < j < |s| ==> key(s[i]) >= key(s[j])
  }

  /** The elements whose key is `k`, in order. */
  function WithKey<T>(key: T -> int, s: seq<T>, k: int): seq<T> {
    if s == [] then []
    else (if key(s[0]) == k then [s[0]] else []) + WithKey(key, s[1..], k)
  }

  /** Places `x` after every element of strictly higher key and before the
      rest. */
  function Insert<T>(key: T -> int, x: T, t: seq<T>): (r: seq<T>)
    ensures multiset(r) == multiset(t) + multiset{x}
  {
    if t == [] || key(x) >= key(t[0]) then [x] + t
    else
      assert t == [t[0]] + t[1..];
      [t[0]] + Insert(key, x, t[1..])
  }

  function SortDescending<T>(key: T -> int, s: seq<T>): (r: seq<T>)
    ensures DescendingBy(key, r)
    ensures multiset(r) == multiset(s)
  {
    if s == [] then []
    else
      assert s == [s[0]] + s[1..];
      var rest := SortDescending(key, s[1..]);
      InsertDescending(key, s[0], rest);
      Insert(key, s[0], rest)
  }

  lemma PrependDescending<T>(key: T -> int, x: T, t: seq<T>)
    requires DescendingBy(key, t)
    requires forall j :: 0 <= j < |t| ==> key(x) >= key(t[j])
    ensures DescendingBy(key, [x] + t)
  {
    var r := [x] + t;
    forall i, j | 0 <= i < j < |r|
      ensures key(r[i]) >= key(r[j])
    {
      if i > 0 {
        assert r[i] == t[i - 1] && r[j] == t[j - 1];
      } else {
        assert r[j] == t[j - 1];
      }
    }
  }

  /** Inserting into a descending list keeps it descending. */
  lemma {:induction false} InsertDescending<T>(key: T -> int, x: T, t: seq<T>)
    requires DescendingBy(key, t)
    ensures DescendingBy(key, Insert(key, x, t))
  {
    if t == [] || key(x) >= key(t[0]) {
      PrependDescending(key, x, t);
    } else {
      assert DescendingBy(key, t[1..]);
      var rest := Insert(key, x, t[1..]);
      InsertDescending(key, x, t[1..]);
      assert t == [t[0]] + t[1..];
      forall j | 0 <= j < |rest|
        ensures key(t[0]) >= key(rest[j])
      {
        assert rest[j] in multiset(rest);
        if rest[j] != x {
          assert rest[j] in multiset(t[1..]);
          var m :| 0 <= m < |t[1..]| && t[1..][m] == rest[j];
          assert t[m + 1] == rest[j];
        }
      }
      PrependDescending(key, t[0], rest);
    }
  }

  lemma WithKeyCons<T>(key: T -> int, x: T, t: seq<T>, k: int)
    ensures WithKey(key, [x] + t, k) == (if key(x) == k then [x] else []) + WithKey(key, t, k)
  {
    assert ([x] + t)[1..] == t;
  }

  /** `Insert` puts `x` in front of every element that shares its key. */
  lemma {:induction false} InsertWithKey<T>(key: T -> int, x: T, t: seq<T>, k: int)
    ensures WithKey(key, Insert(key, x, t), k) == (if key(x) == k then [x] else []) + WithKey(key, t, k)
  {
    if t == [] || key(x) >= key(t[0]) {
      assert Insert(key, x, t) == [x] + t;
      WithKeyCons(key, x, t, k);
    } else {
      InsertWithKey(key, x, t[1..], k);
      InsertWithKeyStep(key, x, t, k);
    }
  }

  /** The step of `InsertWithKey` where `x` moves past `t[0]`. */
  lemma InsertWithKeyStep<T>(key: T -> int, x: T, t: seq<T>, k: int)
    requires t != [] && key(x) < key(t[0])
    requires WithKey(key, Insert(key, x, t[1..]), k)
             == (if key(x) == k then [x] else []) + WithKey(key, t[1..], k)
    ensures WithKey(key, Insert(key, x, t), k) == (if key(x) == k then [x] else []) + WithKey(key, t, k)
  {
    var hx := if key(x) == k then [x] else [];
    var h0 := if key(t[0]) == k then [t[0]] else [];
    var tail := WithKey(key, t[1..], k);
    InsertPastHead(key, x, t, k);
    assert WithKey(key, t, k) == h0 + tail;
    SwapHeads(hx, h0, tail);
  }

  /** Two heads of which at least one is empty commute. */
  lemma SwapHeads<T>(a: seq<T>, b: seq<T>, tail: seq<T>)
    requires a == [] || b == []
    ensures b + (a + tail) == a + (b + tail)
  {
    if a == [] {
      assert a + tail == tail;
    } else {
      assert b + tail == tail;
    }
  }

  /** Moving `x` past `t[0]` leaves `t[0]`'s contribution in front. */
  lemma InsertPastHead<T>(key: T -> int, x: T, t: seq<T>, k: int)
    requires t != [] && key(x) < key(t[0])
    ensures WithKey(key, Insert(key, x, t), k)
            == (if key(t[0]) == k then [t[0]] else []) + WithKey(key, Insert(key, x, t[1..]), k)
  {
    var rest := Insert(key, x, t[1..]);
    assert Insert(key, x, t) == [t[0]] + rest;
    WithKeyCons(key, t[0], rest, k);
  }

  /** The sort is stable: elements with equal keys keep their relative order. */
  lemma {:induction false} SortStable<T>(key: T -> int, s: seq<T>, k: int)
    ensures WithKey(key, SortDescending(key, s), k) == WithKey(key, s, k)
  {
    if s != [] {
      SortStable(key, s[1..], k);
      InsertWithKey(key, s[0], SortDescending(key, s[1..]), k);
    }
  }
}

=== FILE: videoservice.dfy ===
/** The `VideoService` class of src/classes/VideoService.ts. The descriptor
    fetch (`getVideoInfo`) is an input: `None` stands for every outcome the
    class turns into `null` (network failure, non-ok status, unparsable body). */
module VideoService {
  import opened Wrappers
  import Sanitizer
  import opened Renditions

  const WistiaBase := "https://fast.wistia.com"

  /** `getVideoName`, given the outcome of `getVideoInfo`. It reads only the
      name, which the class's `ApMediaResponse` type promises; without one
      the source calls `replace` on `undefined` and throws. */
  function GetVideoName(info: Option<Media>): (r: Option<string>)
    requires info.Some? ==> info.value.name.Some?
    ensures r.None? <==> info.None?
    ensures r.Some? ==> r.value == Sanitizer.Sanitize(info.value.name.value)
    ensures r.Some? ==> Sanitizer.NoForbidden(r.value) && Sanitizer.NoTrailingSpaceOrDot(r.value)
  {
    match info
    case None => None
    case Some(m) => Some(Sanitizer.Sanitize(m.name.value))
  }

  /** `getVideoQualities`, given the outcome of `getVideoInfo`. It reads
      only the asset list; without one the source calls `filter` on
      `undefined` and throws. */
  function GetVideoQualities(info: Option<Media>): (r: Option<seq<string>>)
    requires info.Some? ==> info.value.assets.Some?
    ensures r.None? <==> info.None?
    ensures r.Some? ==> forall k :: 0 <= k < |r.value| ==> Selectable(r.value[k])
    ensures r.Some? ==> multiset(r.value) == multiset(KeptNames(info.value.assets.value))
    ensures r.Some? ==> Descending(r.value)
  {
    match info
    case None => None
    case Some(m) => Some(Qualities(m.assets.value))
  }

  /** `getSubtitlesUrl`, with the platform address written into the template. */
  function GetSubtitlesUrl(videoID: string): (r: string)
    ensures |r| == 39 + |videoID| + 17
    ensures r[..39] == WistiaBase + "/embed/captions/"
    ensures r[39..39 + |videoID|] == videoID
    ensures r[39 + |videoID|..] == ".vtt?language=eng"
  {
    "https://fast.wistia.com/embed/captions/" + videoID + ".vtt?language=eng"
  }

  /** Distinct videos get distinct subtitle addresses. */
  lemma GetSubtitlesUrlInjective(a: string, b: string)
    requires GetSubtitlesUrl(a) == GetSubtitlesUrl(b)
    ensures a == b
  {
    assert |a| == |b|;
    assert a == GetSubtitlesUrl(a)[39..39 + |a|];
  }
}

=== FILE: wrappers.dfy ===
/** Failure-carrying values: `Option` stands for the JavaScript `T | null`
    results of the source, `Result` for a value or a thrown error. */
module Wrappers {

  datatype Option<+T> = None | Some(value: T)

  datatype Result<+R, +E> = Success(value: R) | Failure(error: E)
}
